=== FILE: README.md ===
# DocFetcher progress log and result headers, modelled in Dafny

This project models two pieces of logic from DocFetcher's desktop GUI without
the widgets around them.

**The indexing progress panel** (`ProgressPanel`). While indexing runs, worker
threads report progress messages through `append(String)`. Each message goes
into a lock-protected queue. A single consumer thread waits until the queue is
non-empty. It then drains the queue and keeps at most the newest `itemLimit`
messages. It merges that batch into the table's rows on the UI thread and
sleeps for 40 ms. The table holds at most `itemLimit` rows, and the
constructor raises that limit to at least 2. When a batch would overflow the
table, the oldest rows are evicted so that exactly `itemLimit` remain. Slot 0
is then overwritten with `"..."`, so the first overflow loses one real
message to the sentinel. The model keeps this behaviour. Disposing of the
table interrupts the consumer thread.

- `ProgressLog` (`progress_log.dfy`) holds the sequence logic: the limit
  clamp, enqueueing, taking the newest messages, the `removeFirst` eviction
  loop and the window update. It also gives a reference definition,
  `Expected`, of what the table must show after any history of deliveries.
- `ProgressConsumer` (`progress_consumer.dfy`) models the thread protocol.
  Each critical section and each UI update is one atomic, guarded step over a
  panel record. The consumer is `Checking` the queue under the lock,
  blocked in `Awaiting`, `Delivering(batch)`, `Sleeping` or `Stopped`. The
  panel also records whether the table has been disposed, which is when the
  consumer is interrupted. Two histories sit beside the state: every message
  `append` accepted and every message the table was given. The invariant
  says the table always shows `Expected` of every message delivered so far,
  and that the delivered messages are the taken ones in enqueue order, with
  some possibly missing.

**The result table's column headers** (`ResultPanel`, in
`result_panel.dfy`). Some columns have a file header, an e-mail header and a
combined `file + " / " + email` header. The header mode (files, e-mails, or
both) comes from the caller's preset. When the preset is "files and e-mails",
the mode comes instead from whether the results contain files, e-mails, or
both. A result document is reduced to `isEmail`, and a column is either
fixed or variable-header.

`Outcomes` (`outcomes.dfy`) defines `Option` (a Java reference that may be
null) and `Result` (a value, or the exception thrown).

The only interrupt comes from the table's dispose listener
(`ProgressPanel.java:153-157`), and where it lands decides how the consumer
ends. In the sleep it throws and the loop breaks. In `await` it throws too,
unless a producer's `append` has already signalled the consumer in the same
critical section that queued its message (`ProgressPanel.java:170-171`).
Then `await` returns normally and the message is drained. An `append` in
the model is therefore also the signal: it moves a consumer blocked in
`await` back to checking the queue. While the consumer is checking the
queue or delivering, the interrupt is only noticed at the next `await` or
sleep. So a non-empty queue is still drained (`ProgressPanel.java:119`) and
handed to the update. The update runs against the disposed table, so its
rows never change again (`TableFrozenAfterDispose`).

## Model

| member | source | states |
|---|---|---|
| ProgressLog.ClampItemLimit | src/net/sourceforge/docfetcher/gui/indexing/ProgressPanel.java:84 | the effective limit is at least 2, never below the request, and is either 2 or the request |
| ProgressLog.Enqueue | src/net/sourceforge/docfetcher/gui/indexing/ProgressPanel.java:166-176 | a null message is rejected; otherwise exactly one element is added at the tail and the earlier queue is unchanged |
| ProgressLog.TakeNewest | src/net/sourceforge/docfetcher/gui/indexing/ProgressPanel.java:121-124 | the batch has `min(\|queue\|, limit)` elements, is the queue's suffix in its original order, and is the whole queue when the queue fits |
| ProgressLog.RemoveFirst | src/net/sourceforge/docfetcher/gui/indexing/ProgressPanel.java:188-191 | `n` removals leave `items[n..]`, and throw exactly when `n` exceeds the list length |
| ProgressLog.AppendBatch | src/net/sourceforge/docfetcher/gui/indexing/ProgressPanel.java:179-200 | an empty or oversized batch fails the check; with room the batch is appended and the count grows by its size; on overflow the table has exactly `limit` rows, the sentinel first and then the last `limit - 1` of old rows plus batch; a well-formed table stays well-formed and non-empty |
| ProgressLog.EvictionWithinBounds | src/net/sourceforge/docfetcher/gui/indexing/ProgressPanel.java:181-191 | on overflow the eviction count is between 1 and the number of rows, so `removeFirst` never runs dry |
| ProgressLog.ExpectedShape | src/net/sourceforge/docfetcher/gui/indexing/ProgressPanel.java:185-199 | the reference window has at most `limit` rows, is empty only before any delivery, and after more than `limit` messages is the sentinel plus the newest `limit - 1` |
| ProgressLog.AppendBatchTracksHistory | src/net/sourceforge/docfetcher/gui/indexing/ProgressPanel.java:185-199 | updating a table that shows the reference window of a history gives the reference window of history plus batch, whatever the batch boundaries |
| ProgressLog.WindowScenarios | src/net/sourceforge/docfetcher/gui/indexing/ProgressPanel.java:185-199 | starting from an empty table, limit 2 with "x" gives `["x"]`, and limit 3 fed a to e one at a time shows `["a"]`, `["a", "b"]`, `["a", "b", "c"]`, `["...", "c", "d"]`, then `["...", "d", "e"]` |
| ProgressConsumer.New | src/net/sourceforge/docfetcher/gui/indexing/ProgressPanel.java:83-84 | a new panel has the limit `max(2, requested)`, an empty queue and table, empty accepted and delivered histories (so nothing lost), a consumer about to check the queue, no disposal, and satisfies the invariant |
| ProgressConsumer.Step | src/net/sourceforge/docfetcher/gui/indexing/ProgressPanel.java:113-176 | only delivery touches the table or the delivered history, and on a disposed table not even delivery does; only `append` extends the accepted history, and its signal moves a consumer blocked in `await` back to checking the queue while leaving any other phase alone; no step changes the limit or undoes the disposal |
| ProgressConsumer.StepPreservesInv | src/net/sourceforge/docfetcher/gui/indexing/ProgressPanel.java:113-176 | every enabled step keeps the invariant (row count within the limit, item count equals rows, table equals the reference window, batch within bounds, a consumer blocked in `await` faces an empty queue, queue is the newest accepted messages, delivered messages in enqueue order), and only a null `append` throws |
| ProgressConsumer.DrainTakesNewest | src/net/sourceforge/docfetcher/gui/indexing/ProgressPanel.java:117-124 | a drain runs only on a non-empty queue, empties it, moves every queued message out of the queue, and yields the newest `min(\|queue\|, itemLimit)` messages in order, a batch of 1 to `itemLimit` messages |
| ProgressConsumer.DeliverUpdatesTable | src/net/sourceforge/docfetcher/gui/indexing/ProgressPanel.java:179-205 | delivery to a live table succeeds, leaves a non-empty table that never shrinks, appends the batch when it fits, and otherwise gives exactly `itemLimit` rows with the sentinel first |
| ProgressConsumer.StoppedIsTerminal | src/net/sourceforge/docfetcher/gui/indexing/ProgressPanel.java:127-146 | once stopped only producers and the disposal can act; the phase stays stopped and the table is unchanged |
| ProgressConsumer.ExecutePreservesInv | src/net/sourceforge/docfetcher/gui/indexing/ProgressPanel.java:113-148 | after any interleaving of steps the invariant holds, so the table never exceeds `itemLimit` rows and its item count matches |
| ProgressConsumer.DeliveredInEnqueueOrder | src/net/sourceforge/docfetcher/gui/indexing/ProgressPanel.java:113-176 | the messages given to the table are a subsequence of those taken from the queue, in enqueue order; when none was lost they are exactly the taken ones, minus the batch in hand |
| ProgressConsumer.LossOnlyByTruncationOrDisposal | src/net/sourceforge/docfetcher/gui/indexing/ProgressPanel.java:121-124 | a drain of more than `itemLimit` messages loses exactly the older surplus, a delivery to a disposed table loses its whole batch, and no other step loses a message that has left the queue (messages still queued when the consumer stops are never shown, but are not counted here) |
| ProgressConsumer.TableFrozenAfterDispose | src/net/sourceforge/docfetcher/gui/indexing/ProgressPanel.java:153-157 | once the table is disposed, no schedule of further steps changes its rows or the delivered history |
| ProgressConsumer.DisposeDuringAwait | src/net/sourceforge/docfetcher/gui/indexing/ProgressPanel.java:119-126 | a consumer blocked in `await` when the table is disposed races the producers: if the interrupt is taken first it stops and a later message stays queued for good; if an `append` comes first its signal returns the consumer to checking the queue, and it cannot stop before draining the message |
| ProgressConsumer.ShutdownBeforeAnyMessage | src/net/sourceforge/docfetcher/gui/indexing/ProgressPanel.java:119-129 | a panel disposed of before any message arrives can stop, cannot drain, and its table stays empty |
| ResultPanel.GetInstance | src/net/sourceforge/docfetcher/gui/ResultPanel.java:63-70 | both flags give files-and-e-mails, only files gives files, and otherwise (including neither) e-mails |
| ResultPanel.GetInstanceInvertsFlags | src/net/sourceforge/docfetcher/gui/ResultPanel.java:63-70 | a mode is recovered from its two flags, and the flags from the mode whenever something was found |
| ResultPanel.NewVariableColumn | src/net/sourceforge/docfetcher/gui/ResultPanel.java:239-246 | a new variable column starts out showing its file header, and its combined header is file header, `" / "`, e-mail header |
| ResultPanel.SetLabel | src/net/sourceforge/docfetcher/gui/ResultPanel.java:49-57 | files shows the file header, e-mails the e-mail header, files-and-e-mails the combined header (file header, `" / "`, e-mail header on a coherent column); the header variants are kept |
| ResultPanel.SetLabelIsInjective | src/net/sourceforge/docfetcher/gui/ResultPanel.java:49-57 | when the file and e-mail headers differ, the shown header determines the mode it was set for |
| ResultPanel.UpdateColumnHeaders | src/net/sourceforge/docfetcher/gui/ResultPanel.java:221-226 | fixed columns are left as they are, every variable column is relabelled for the mode, and the column count is unchanged |
| ResultPanel.UpdateColumnHeadersLastWins | src/net/sourceforge/docfetcher/gui/ResultPanel.java:221-226 | after an update the headers show its mode, a later update overrides an earlier one, and re-applying the shown mode changes nothing |
| ResultPanel.DefaultColumns | src/net/sourceforge/docfetcher/gui/ResultPanel.java:101-168 | the table has eight columns, of which exactly the first, fourth, seventh and eighth (title, filename, authors, last modified) are variable; every variable column's combined header is well formed, and all of them start out showing their file headers |
| ResultPanel.NewPanel | src/net/sourceforge/docfetcher/gui/ResultPanel.java:79-80 | both modes start at files, nothing is on display, and the panel satisfies its invariant |
| ResultPanel.ScanResults | src/net/sourceforge/docfetcher/gui/ResultPanel.java:209-216 | files-found holds exactly when some result is not an e-mail, and e-mails-found exactly when some result is an e-mail |
| ResultPanel.SetActualHeaderMode | src/net/sourceforge/docfetcher/gui/ResultPanel.java:204-219 | a preset other than files-and-e-mails becomes the actual mode with no relabelling; otherwise the actual mode comes from the results and every variable column is relabelled to it; the preset and the results on display are left as they were |
| ResultPanel.SetResults | src/net/sourceforge/docfetcher/gui/ResultPanel.java:189-202 | the preset becomes the new mode and the results go on display; headers are relabelled for it right away only when it changed and is not files-and-e-mails; the invariant (actual follows the preset or the results, headers show the actual mode) is kept; afterwards the e-mail icon marks exactly the e-mails of a mixed display under the files-and-e-mails preset |
| ResultPanel.EmailIconOrNull | src/net/sourceforge/docfetcher/gui/ResultPanel.java:228-232 | the e-mail icon is shown exactly when the actual mode is files-and-e-mails and the document is an e-mail; otherwise there is no icon |
| ResultPanel.EmailIconOnlyWhenMixed | src/net/sourceforge/docfetcher/gui/ResultPanel.java:204-232 | in a panel that keeps its invariant, the icon appears exactly beside e-mails of a display holding both files and e-mails under the files-and-e-mails preset |

## Left out

- Real threading in `ProgressPanel` is not modelled. This covers the `ReentrantLock`, the `Condition` signal and await, the 40 ms sleep and its timing, and fairness. Each critical section is one atomic step, and the interrupt is the `Dispose` step, since only the dispose listener interrupts the consumer. Spurious wake-ups from `await` are not modelled, because they return the consumer to the same check of the queue.
- SWT rendering is not modelled. This covers the virtual table's `SetData` listener, `setRedraw`, `clearAll`, and `showItem`/`getItem`. Only the row texts and the widget's item count remain. `Util.runSyncExec` is not part of this model: a batch handed to a disposed table is taken to change no row, and the consumer goes on to its sleep.
- The `main` demo program of `ProgressPanel` is left out because it only drives the panel by hand.
- An exception from the window update would end the consumer thread. The model instead leaves the panel unchanged, and `StepPreservesInv` shows that no such exception can occur.
- `ResultPanel` column plumbing is not modelled: the per-cell text getters (title, score, size, filename, type, path, authors, date), `DateFormat` formatting, the Title column's file-icon lookup through `FileIconCache`, `SettingsConf` width binding and selection events. `viewer.setRoot` is modelled only as the panel's `results` field. An icon is the opaque token `EmailIcon`.
- The `Util.checkNotNull` calls in `setResults` and in the `VariableHeaderColumn` constructor are not modelled, because Dafny values are never null. The null check in `ProgressPanel.append(String)` is modelled, as an `Option`.
- Java's 32-bit `int` arithmetic is modelled with unbounded `int` and `nat`: the requested limit in `ClampItemLimit`, the sum `table.getItemCount() + messages.size()` (`ProgressPanel.java:185`) and `size - itemLimit` (`ProgressPanel.java:122`). These wrap around only past 2^31 rows or queued messages, far beyond what a table or queue can hold, so the model leaves wrap-around out.
- The Title column's own cell image is not modelled: it shows the e-mail icon beside every e-mail in every header mode (`ResultPanel.java:105-107`), independently of `getEmailIconOrNull`.

=== FILE: outcomes.dfy ===
/** The two wrappers shared by the panel models: an optional value (a Java
    reference that may be null) and the outcome of an operation that may
    throw. */
module Outcomes {

  /** A value that may be absent; `None` stands for a Java `null`. */
  datatype Option<+T> = None | Some(value: T)

  /** The outcome of an operation: a value, or the error it throws. */
  datatype Result<+T, +E> = Ok(value: T) | Err(error: E)
}

=== FILE: progress_consumer.dfy ===
/** The producer/consumer protocol of the indexing progress panel, with each
    lock-protected critical section and each UI update taken as one atomic
    step. Producers append messages to the queue at any time. One consumer
    thread takes the lock and checks the queue; it blocks in `await` while the
    queue is empty, drains it once it is not, delivers the batch to the table
    and sleeps, until the disposal of the table interrupts it.

    The only interrupt comes from the table's dispose listener, so an
    interrupted consumer always faces a disposed table. Where the interrupt
    lands decides how the thread ends. In the sleep it throws and the loop
    breaks. In `await` it throws too, unless a producer's `append` signalled
    the consumer first: then `await` returns normally and the new message is
    drained. While the consumer is checking the queue or delivering, the
    interrupt is only noticed at the next `await` or sleep: a non-empty queue
    is still drained and handed to the table's update, but the disposed
    table's rows never change again. */
module ProgressConsumer {
  import opened Outcomes
  import opened ProgressLog

  /** Where the consumer thread is in its loop: `Checking` the queue under
      the lock, blocked in `Awaiting`, `Delivering` the batch it drained,
      `Sleeping` between rounds, or `Stopped` for good. */
  datatype Phase = Checking | Awaiting | Delivering(batch: seq<string>) | Sleeping | Stopped

  /** The panel: the shared queue, the table, the clamped row limit, the
      consumer's phase, and whether the table has been disposed (which is
      also when the thread is interrupted). Two histories are recorded beside
      them: `accepted`, every message `append` took, and `delivered`, every
      message the table's rows were given, both in order. */
  datatype Panel = Panel(
    queue: seq<string>,
    table: Table,
    itemLimit: nat,
    phase: Phase,
    disposed: bool,
    accepted: seq<string>,
    delivered: seq<string>)

  /** The atomic steps: a producer's `append`, which also signals a consumer
      blocked in `await`; the consumer blocking in `await`, draining,
      delivering, returning from sleep and leaving the loop on an interrupt
      (`Halt`); and the table's disposal. */
  datatype Action = Append(message: Option<string>) | Await | Drain | Deliver | Wake | Dispose | Halt

  /** The messages that have left the queue: everything accepted except what
      is still queued. */
  function Taken(p: Panel): seq<string> {
    if |p.queue| <= |p.accepted| then p.accepted[..|p.accepted| - |p.queue|] else []
  }

  /** The batch the consumer holds between its drain and its delivery. */
  function InHand(p: Panel): seq<string> {
    if p.phase.Delivering? then p.phase.batch else []
  }

  /** The invariant every reachable panel keeps: the limit is clamped; the
      widget's item count equals the number of rows; the rows show the
      reference window of everything delivered; a drained batch is non-empty
      and within the limit; a consumer blocked in `await` faces an empty
      queue; the queue holds the newest accepted messages; and
      what was delivered, followed by the batch in hand, is what left the
      queue with some messages deleted, in enqueue order. */
  predicate Inv(p: Panel) {
    && p.itemLimit >= 2
    && WellFormed(p.table, p.itemLimit)
    && p.table.items == Expected(p.delivered, p.itemLimit)
    && (p.phase.Delivering? ==> 1 <= |p.phase.batch| <= p.itemLimit)
    && (p.phase == Awaiting ==> |p.queue| == 0)
    && |p.queue| <= |p.accepted|
    && p.accepted[|p.accepted| - |p.queue|..] == p.queue
    && Subseq(p.delivered + InHand(p), Taken(p))
  }

  /** A freshly constructed panel whose consumer thread has just started. */
  function New(requested: int): (p: Panel)
    ensures Inv(p)
    ensures requested < 2 ==> p.itemLimit == 2
    ensures requested >= 2 ==> p.itemLimit == requested
    ensures p.queue == [] && p.table.items == [] && p.phase == Checking && !p.disposed
    ensures p.accepted == [] && p.delivered == [] && Lost(p) == 0
  {
    var limit := ClampItemLimit(requested);
    assert requested < 2 ==> limit == 2;
    var p := Panel([], EmptyTable, limit, Checking, false, [], []);
    assert WellFormed(EmptyTable, limit) && Expected([], limit) == [];
    assert Taken(p) == [] && InHand(p) == [] && p.delivered + InHand(p) == [];
    assert Subseq([], []);
    p
  }

  /** When a step can happen. Producers and the disposal can act at any time.
      The consumer drains a non-empty queue it is checking, and blocks on an
      empty one unless interrupted (then `await` throws at once). A blocked
      consumer that is interrupted before any producer signals it is thrown
      out of `await`. It leaves its sleep normally only when not
      interrupted. */
  predicate Enabled(p: Panel, a: Action) {
    match a
    case Append(_) => true
    case Dispose => true
    case Await => p.phase == Checking && |p.queue| == 0 && !p.disposed
    case Drain => p.phase == Checking && |p.queue| > 0
    case Deliver => p.phase.Delivering?
    case Wake => p.phase == Sleeping && !p.disposed
    case Halt =>
      && p.disposed
      && (p.phase == Sleeping || p.phase == Awaiting || (p.phase == Checking && |p.queue| == 0))
  }

  /** The effect of one enabled step, or the error it throws. A batch handed
      to a disposed table changes no row: the update's first call is on the
      disposed widget; the consumer goes on to its sleep, which the interrupt
      then ends. */
  function Step(p: Panel, a: Action): (r: Result<Panel, Error>)
    requires Enabled(p, a)
    ensures r.Ok? && !a.Deliver? ==> r.value.table == p.table && r.value.delivered == p.delivered
    ensures r.Ok? && p.disposed ==> r.value.disposed && r.value.table == p.table && r.value.delivered == p.delivered
    ensures r.Ok? ==> r.value.itemLimit == p.itemLimit
    ensures r.Ok? && !a.Append? ==> r.value.accepted == p.accepted
    ensures r.Ok? && a.Append? ==> r.value.phase != Awaiting && (p.phase != Awaiting ==> r.value.phase == p.phase)
  {
    match a
    case Append(message) =>
      (match Enqueue(p.queue, message)
       case Err(e) => Err(e)
       case Ok(q) =>
         var phase := if p.phase == Awaiting then Checking else p.phase;
         Ok(p.(queue := q, accepted := p.accepted + [message.value], phase := phase)))
    case Await => Ok(p.(phase := Awaiting))
    case Drain =>
      Ok(p.(queue := [], phase := Delivering(TakeNewest(p.queue, p.itemLimit))))
    case Deliver =>
      if p.disposed then Ok(p.(phase := Sleeping))
      else
        (match AppendBatch(p.table, p.phase.batch, p.itemLimit)
         case Err(e) => Err(e)
         case Ok(t) => Ok(p.(table := t, phase := Sleeping, delivered := p.delivered + p.phase.batch)))
    case Wake => Ok(p.(phase := Checking))
    case Dispose => Ok(p.(disposed := true))
    case Halt => Ok(p.(phase := Stopped))
  }

  /** A producer's `append` leaves what has left the queue as it was. */
  lemma AppendKeepsTaken(p: Panel, m: string)
    requires |p.queue| <= |p.accepted|
    requires p.accepted[|p.accepted| - |p.queue|..] == p.queue
    ensures var q := p.(queue := p.queue + [m], accepted := p.accepted + [m]);
      && |q.queue| <= |q.accepted|
      && q.accepted[|q.accepted| - |q.queue|..] == q.queue
      && Taken(q) == Taken(p)
  {
    var acc := p.accepted + [m];
    assert acc[|acc| - |p.queue| - 1..] == p.accepted[|p.accepted| - |p.queue|..] + [m];
    assert acc[..|p.accepted| - |p.queue|] == p.accepted[..|p.accepted| - |p.queue|];
  }

  /** A producer's `append` keeps the invariant, and neither what has left
      the queue nor the batch in hand changes. */
  lemma AppendKeepsInv(p: Panel, m: string)
    requires Inv(p)
    ensures Step(p, Append(Some(m))).Ok?
    ensures var q := Step(p, Append(Some(m))).value;
      Inv(q) && Taken(q) == Taken(p) && InHand(q) == InHand(p)
  {
    var phase := if p.phase == Awaiting then Checking else p.phase;
    var q := p.(queue := p.queue + [m], accepted := p.accepted + [m], phase := phase);
    assert Step(p, Append(Some(m))).value == q;
    AppendKeepsTaken(p, m);
    assert Taken(q) == Taken(p.(queue := p.queue + [m], accepted := p.accepted + [m]));
    assert InHand(q) == InHand(p);
  }

  /** A step of the consumer that only moves it between phases in which it
      holds no batch keeps the invariant. */
  lemma PhaseChangeKeepsInv(p: Panel, phase: Phase)
    requires Inv(p)
    requires !p.phase.Delivering? && !phase.Delivering?
    requires phase == Awaiting ==> |p.queue| == 0
    ensures Inv(p.(phase := phase))
  {
    var q := p.(phase := phase);
    assert Taken(q) == Taken(p);
    assert InHand(q) == InHand(p) == [];
  }

  /** Disposing of the table keeps the invariant. */
  lemma DisposeKeepsInv(p: Panel)
    requires Inv(p)
    ensures Inv(p.(disposed := true))
  {
    var q := p.(disposed := true);
    assert Taken(q) == Taken(p);
    assert InHand(q) == InHand(p);
  }

  /** The accepted history splits into what has left the queue and the
      queue itself. */
  lemma AcceptedSplits(accepted: seq<string>, queue: seq<string>)
    requires |queue| <= |accepted|
    requires accepted[|accepted| - |queue|..] == queue
    ensures accepted == accepted[..|accepted| - |queue|] + queue
  {
    var n := |accepted| - |queue|;
    assert accepted == accepted[..n] + accepted[n..];
  }

  /** Appending a suffix of the queue to a subsequence of what was taken
      gives a subsequence of what was taken followed by the queue. */
  lemma SuffixKeepsOrder(delivered: seq<string>, taken: seq<string>, queue: seq<string>, k: nat)
    requires Subseq(delivered, taken)
    requires k <= |queue|
    ensures Subseq(delivered + queue[k..], taken + queue)
  {
    SubseqSuffix(queue, k);
    SubseqConcat(delivered, taken, queue[k..], queue);
  }

  /** A drain moves the whole queue out, so what has left the queue grows by
      it, and the batch kept is a subsequence of it. */
  lemma DrainKeepsOrder(p: Panel)
    requires Inv(p)
    requires Enabled(p, Drain)
    ensures Inv(Step(p, Drain).value)
    ensures Taken(Step(p, Drain).value) == Taken(p) + p.queue
  {
    var batch := TakeNewest(p.queue, p.itemLimit);
    var q := p.(queue := [], phase := Delivering(batch));
    assert Step(p, Drain).value == q;
    assert Taken(q) == Taken(p) + p.queue by {
      AcceptedSplits(p.accepted, p.queue);
    }
    assert Subseq(q.delivered + InHand(q), Taken(q)) by {
      assert p.delivered + InHand(p) == p.delivered;
      SuffixKeepsOrder(p.delivered, Taken(p), p.queue, |p.queue| - |batch|);
      assert q.delivered + InHand(q) == p.delivered + batch;
    }
  }

  /** A delivery to a disposed table drops the batch in hand. */
  lemma DisposedDeliverKeepsOrder(p: Panel)
    requires Inv(p)
    requires Enabled(p, Deliver)
    requires p.disposed
    ensures Step(p, Deliver).Ok?
    ensures Inv(Step(p, Deliver).value)
  {
    var q := p.(phase := Sleeping);
    assert Step(p, Deliver).value == q;
    assert Taken(q) == Taken(p);
    SubseqDropTail(p.delivered, p.phase.batch, Taken(p));
    assert q.delivered + InHand(q) == p.delivered;
  }

  /** A delivery to a live table moves the batch in hand into the delivered
      history. */
  lemma LiveDeliverKeepsOrder(p: Panel)
    requires Inv(p)
    requires Enabled(p, Deliver)
    requires !p.disposed
    ensures Step(p, Deliver).Ok?
    ensures Inv(Step(p, Deliver).value)
  {
    AppendBatchTracksHistory(p.table, p.delivered, p.phase.batch, p.itemLimit);
    var t := AppendBatch(p.table, p.phase.batch, p.itemLimit).value;
    var q := p.(table := t, phase := Sleeping, delivered := p.delivered + p.phase.batch);
    assert Step(p, Deliver).value == q;
    assert Taken(q) == Taken(p);
    assert q.delivered + InHand(q) == p.delivered + InHand(p);
  }

  /** Every enabled step of a panel that keeps the invariant succeeds, except
      a producer's `append` of null, and leads to a panel that keeps it. */
  lemma StepPreservesInv(p: Panel, a: Action)
    requires Inv(p)
    requires Enabled(p, a)
    ensures Step(p, a).Err? <==> a == Append(None)
    ensures Step(p, a).Ok? ==> Inv(Step(p, a).value)
  {
    match a
    case Append(m) =>
      if m.Some? {
        AppendKeepsInv(p, m.value);
      }
    case Drain => DrainKeepsOrder(p);
    case Deliver =>
      if p.disposed {
        DisposedDeliverKeepsOrder(p);
      } else {
        LiveDeliverKeepsOrder(p);
      }
    case Await =>
      assert Step(p, a).value == p.(phase := Awaiting);
      PhaseChangeKeepsInv(p, Awaiting);
    case Wake =>
      assert Step(p, a).value == p.(phase := Checking);
      PhaseChangeKeepsInv(p, Checking);
    case Halt =>
      assert Step(p, a).value == p.(phase := Stopped);
      PhaseChangeKeepsInv(p, Stopped);
    case Dispose =>
      assert Step(p, a).value == p.(disposed := true);
      DisposeKeepsInv(p);
  }

  /** A drain happens only on a non-empty queue that the consumer is
      checking. It empties the queue and keeps the newest
      `min(|queue|, itemLimit)` messages in their order, dropping only older
      ones, and the batch suits the window update. Every queued message
      leaves the queue in this drain and in no other. */
  lemma DrainTakesNewest(p: Panel)
    requires Inv(p)
    requires Enabled(p, Drain)
    ensures |p.queue| > 0
    ensures Step(p, Drain).Ok?
    ensures Step(p, Drain).value.queue == []
    ensures Taken(Step(p, Drain).value) == Taken(p) + p.queue
    ensures var b := Step(p, Drain).value.phase.batch;
      && 1 <= |b| <= p.itemLimit
      && |b| == (if |p.queue| <= p.itemLimit then |p.queue| else p.itemLimit)
      && p.queue == p.queue[..|p.queue| - |b|] + b
      && (|p.queue| <= p.itemLimit ==> b == p.queue)
  {
    DrainKeepsOrder(p);
  }

  /** Delivering a batch to a live table leaves it non-empty and never
      shrinks it: with room to spare the batch is appended as it is;
      otherwise the table holds exactly `itemLimit` rows, the sentinel first
      and then the newest `itemLimit - 1` messages. */
  lemma DeliverUpdatesTable(p: Panel)
    requires Inv(p)
    requires Enabled(p, Deliver)
    requires !p.disposed
    ensures Step(p, Deliver).Ok?
    ensures var q := Step(p, Deliver).value;
      var b := p.phase.batch;
      && q.phase == Sleeping
      && 0 < |q.table.items| == q.table.itemCount <= p.itemLimit
      && |p.table.items| <= |q.table.items|
      && (|p.table.items| + |b| <= p.itemLimit ==> q.table.items == p.table.items + b)
      && (|p.table.items| + |b| > p.itemLimit ==>
            && |q.table.items| == p.itemLimit
            && q.table.items[0] == Ellipsis
            && q.table.items[1..] == (p.table.items + b)[|p.table.items| + |b| - (p.itemLimit - 1)..])
  {
  }

  /** Once stopped, the consumer never runs again: only producers and the
      disposal can act, and neither touches the table. */
  lemma StoppedIsTerminal(p: Panel, a: Action)
    requires p.phase == Stopped
    requires Enabled(p, a)
    ensures a.Append? || a.Dispose?
    ensures Step(p, a).Ok? ==>
      Step(p, a).value.phase == Stopped && Step(p, a).value.table == p.table
  {
  }

  /** Runs a schedule of steps: each step that is enabled and does not throw
      is taken; a disabled step or one that throws leaves the panel as it was
      (a rejected `append` throws to its producer only). */
  function Execute(p: Panel, actions: seq<Action>): Panel
    decreases |actions|
  {
    if |actions| == 0 then p
    else
      var a := actions[0];
      var next := if Enabled(p, a) && Step(p, a).Ok? then Step(p, a).value else p;
      Execute(next, actions[1..])
  }

  /** The invariant holds after every schedule: in particular the table never
      holds more than `itemLimit` rows and its item count always matches. */
  lemma {:induction false} ExecutePreservesInv(p: Panel, actions: seq<Action>)
    requires Inv(p)
    ensures Inv(Execute(p, actions))
    ensures |Execute(p, actions).table.items| <= p.itemLimit
    ensures Execute(p, actions).table.itemCount == |Execute(p, actions).table.items|
    decreases |actions|
  {
    if |actions| > 0 {
      var a := actions[0];
      if Enabled(p, a) {
        StepPreservesInv(p, a);
        if Step(p, a).Ok? {
          ExecutePreservesInv(Step(p, a).value, actions[1..]);
        } else {
          ExecutePreservesInv(p, actions[1..]);
        }
      } else {
        ExecutePreservesInv(p, actions[1..]);
      }
    }
  }

  /** How many messages have left the queue without reaching the table (or
      the consumer's hands): those dropped by a drain of an over-full queue
      or handed to a disposed table. */
  function Lost(p: Panel): int {
    |Taken(p)| - |p.delivered| - |InHand(p)|
  }

  /** Messages reach the table in the order they were appended, with some
      possibly missing; and when none has been lost, the table was given
      exactly the messages that left the queue. */
  lemma DeliveredInEnqueueOrder(p: Panel)
    requires Inv(p)
    ensures Subseq(p.delivered, Taken(p))
    ensures Lost(p) >= 0
    ensures Lost(p) == 0 ==> p.delivered + InHand(p) == Taken(p)
  {
    SubseqLength(p.delivered + InHand(p), Taken(p));
    SubseqDropTail(p.delivered, InHand(p), Taken(p));
  }

  /** Messages are lost only by draining more than `itemLimit` of them at
      once, which loses the older surplus, or by delivering to a disposed
      table, which loses the whole batch; every other step keeps the count of
      lost messages. */
  lemma LossOnlyByTruncationOrDisposal(p: Panel, a: Action)
    requires Inv(p)
    requires Enabled(p, a)
    requires Step(p, a).Ok?
    ensures Lost(Step(p, a).value) == Lost(p) +
      (if a == Drain && |p.queue| > p.itemLimit then |p.queue| - p.itemLimit
       else if a == Deliver && p.disposed then |p.phase.batch|
       else 0)
  {
    match a
    case Append(m) =>
      AppendKeepsInv(p, m.value);
    case Drain =>
      DrainTakesNewest(p);
    case Deliver =>
      assert Taken(Step(p, a).value) == Taken(p);
    case _ =>
      assert Taken(Step(p, a).value) == Taken(p);
  }

  /** Once the table is disposed its rows never change again, whatever the
      consumer and the producers do afterwards. */
  lemma {:induction false} TableFrozenAfterDispose(p: Panel, actions: seq<Action>)
    requires p.disposed
    ensures Execute(p, actions).table == p.table
    ensures Execute(p, actions).delivered == p.delivered
    decreases |actions|
  {
    if |actions| > 0 {
      var a := actions[0];
      var next := if Enabled(p, a) && Step(p, a).Ok? then Step(p, a).value else p;
      TableFrozenAfterDispose(next, actions[1..]);
    }
  }

  /** A consumer blocked in `await` when the table is disposed races a
      producer. If the interrupt is taken first the consumer stops, and a
      later message stays in the queue for good. If the producer's `append`
      comes first its signal returns the consumer to checking the queue, and
      it cannot stop before draining the message. */
  lemma DisposeDuringAwait(requested: int, message: string)
    ensures var p := Step(Step(New(requested), Await).value, Dispose).value;
      && Enabled(p, Halt)
      && (var stopped := Step(Step(p, Halt).value, Append(Some(message))).value;
          stopped.phase == Stopped && stopped.queue == [message])
      && (var signalled := Step(p, Append(Some(message))).value;
          && signalled.phase == Checking && signalled.queue == [message]
          && !Enabled(signalled, Halt) && Enabled(signalled, Drain))
  {
  }

  /** A panel disposed of before any message arrives stops without ever
      draining, and then never shows anything. */
  lemma ShutdownBeforeAnyMessage(requested: int, actions: seq<Action>)
    ensures var p := Step(New(requested), Dispose).value;
      && Enabled(p, Halt)
      && !Enabled(p, Drain)
      && Execute(Step(p, Halt).value, actions).table.items == []
  {
    var p := Step(New(requested), Dispose).value;
    TableFrozenAfterDispose(Step(p, Halt).value, actions);
  }
}

=== FILE: progress_log.dfy ===
/** The sequence logic of the indexing progress panel: the intake queue that
    producers append to, the bounded batch the consumer takes from it, and the
    rolling window of table rows that each batch is merged into.

    The window holds at most `itemLimit` rows. When a batch would overflow it,
    the oldest rows are evicted so that exactly `itemLimit` remain, and slot 0
    is then overwritten with the sentinel "..." -- so the first overflow loses
    one real message to the sentinel. That behaviour is kept as it is. */
module ProgressLog {
  import opened Outcomes

  /** The truncation sentinel written into slot 0 after an eviction. */
  const Ellipsis: string := "..."

  /** What the panel can throw: a null message handed to `append`, a failed
      `Util.checkThat` on a batch, and `removeFirst` on an empty list. */
  datatype Error = NullMessage | CheckFailed | NoSuchElement

  /** The table shown to the user: its row texts (`tableItems`) and the item
      count the table widget was last given. The two are kept separately, as
      in the widget, and the invariant below proves that they agree. */
  datatype Table = Table(items: seq<string>, itemCount: int)

  /** The empty table a new panel starts with. */
  const EmptyTable: Table := Table([], 0)

  /** The effective row limit of a panel constructed with `requested`: the
      constructor raises every request below 2 to 2. */
  function ClampItemLimit(requested: int): (limit: nat)
    ensures limit >= 2
    ensures requested <= limit
    ensures limit == 2 || limit == requested
  {
    if requested < 2 then 2 else requested
  }

  /** `append(String)`: a null message is rejected; any other message goes to
      the tail of the queue. */
  function Enqueue(queue: seq<string>, message: Option<string>): (r: Result<seq<string>, Error>)
    ensures message.None? <==> r == Err(NullMessage)
    ensures r.Ok? ==> |r.value| == |queue| + 1
    ensures r.Ok? ==> r.value[..|queue|] == queue && r.value[|queue|] == message.value
  {
    match message
    case None => Err(NullMessage)
    case Some(m) => Ok(queue + [m])
  }

  /** The part of the queue the consumer keeps when it drains: the sub-list
      from `max(0, size - limit)` to `size`. */
  function TakeNewest(queue: seq<string>, limit: nat): (batch: seq<string>)
    ensures |batch| == if |queue| <= limit then |queue| else limit
    ensures queue[..|queue| - |batch|] + batch == queue
    ensures |queue| <= limit ==> batch == queue
  {
    var start := if |queue| - limit > 0 then |queue| - limit else 0;
    queue[start..]
  }

  /** `n` successive calls of `removeFirst` on `items`; the call that finds
      the list empty throws. */
  function RemoveFirst(items: seq<string>, n: int): (r: Result<seq<string>, Error>)
    ensures 0 <= n <= |items| ==> r == Ok(items[n..])
    ensures n < 0 ==> r == Ok(items)
    ensures n > |items| ==> r == Err(NoSuchElement)
    decreases if n < 0 then 0 else n
  {
    if n <= 0 then Ok(items)
    else if |items| == 0 then Err(NoSuchElement)
    else RemoveFirst(items[1..], n - 1)
  }

  /** The state the window update expects to start from: the limit has been
      clamped, the widget's item count equals the number of rows, and the rows
      fit within the limit. */
  predicate WellFormed(t: Table, limit: int) {
    limit >= 2 && t.itemCount == |t.items| <= limit
  }

  /** How many rows the window update evicts: the new item count minus the
      limit (nothing is evicted when this is not positive). */
  function RemoveCount(t: Table, batch: seq<string>, limit: int): int {
    t.itemCount + |batch| - limit
  }

  /** `append(List<String>)`: check the batch, then either append it, or evict
      the oldest rows, append it and overwrite slot 0 with the sentinel. */
  function AppendBatch(t: Table, batch: seq<string>, limit: int): (r: Result<Table, Error>)
    ensures |batch| == 0 || |batch| > limit ==> r == Err(CheckFailed)
    ensures WellFormed(t, limit) && 1 <= |batch| <= limit ==>
      r.Ok? && WellFormed(r.value, limit) && |r.value.items| > 0
    ensures WellFormed(t, limit) && 1 <= |batch| && |t.items| + |batch| <= limit ==>
      r == Ok(Table(t.items + batch, |t.items| + |batch|))
    ensures WellFormed(t, limit) && 1 <= |batch| <= limit && |t.items| + |batch| > limit ==>
      && r.Ok?
      && |r.value.items| == r.value.itemCount == limit
      && r.value.items[0] == Ellipsis
      && r.value.items[1..] == (t.items + batch)[|t.items| + |batch| - (limit - 1)..]
  {
    if |batch| == 0 || |batch| > limit then Err(CheckFailed)
    else
      var removeCount := RemoveCount(t, batch, limit);
      if removeCount > 0 then
        match RemoveFirst(t.items, removeCount)
        case Err(e) => Err(e)
        case Ok(rest) =>
          var rows := rest + batch;
          assert WellFormed(t, limit) && |batch| <= limit ==>
            rest == t.items[removeCount..] && rows == (t.items + batch)[removeCount..];
          Ok(Table([Ellipsis] + rows[1..], limit))
      else
        Ok(Table(t.items + batch, t.itemCount + |batch|))
  }

  /** On overflow the eviction loop removes at least one row and never more
      rows than the window holds, so `removeFirst` cannot run dry. */
  lemma EvictionWithinBounds(t: Table, batch: seq<string>, limit: int)
    requires WellFormed(t, limit)
    requires 1 <= |batch| <= limit
    requires RemoveCount(t, batch, limit) > 0
    ensures 1 <= RemoveCount(t, batch, limit) <= |t.items|
    ensures RemoveFirst(t.items, RemoveCount(t, batch, limit)).Ok?
  {
  }

  /** The reference behaviour of the window: after the messages `history`
      have been delivered, in any batching, the table shows all of them while
      they fit, and otherwise the sentinel followed by the newest `limit - 1`. */
  function Expected(history: seq<string>, limit: nat): (rows: seq<string>)
    requires limit >= 2
  {
    if |history| <= limit then history
    else [Ellipsis] + history[|history| - (limit - 1)..]
  }

  /** The reference window never holds more than `limit` rows, is empty only
      when nothing has been delivered, and shows the sentinel exactly when
      more than `limit` messages have been delivered. */
  lemma ExpectedShape(history: seq<string>, limit: nat)
    requires limit >= 2
    ensures |Expected(history, limit)| <= limit
    ensures |Expected(history, limit)| == 0 <==> |history| == 0
    ensures |history| > limit ==>
      && |Expected(history, limit)| == limit
      && Expected(history, limit)[0] == Ellipsis
      && Expected(history, limit)[1..] == history[|history| - (limit - 1)..]
  {
  }

  /** Appending the same batch to two sequences whose last `n` elements agree
      gives two sequences whose last `m` elements agree, for any `m` up to
      `n` plus the batch length. */
  lemma {:induction false} TailsOfConcat(x: seq<string>, y: seq<string>, batch: seq<string>, n: nat, m: nat)
    requires n <= |x| && n <= |y|
    requires x[|x| - n..] == y[|y| - n..]
    requires m <= n + |batch|
    ensures (x + batch)[|x| + |batch| - m..] == (y + batch)[|y| + |batch| - m..]
  {
  }

  /** Delivering one more batch to a table that shows the reference window of
      `history` yields the reference window of `history + batch`: whatever the
      batch boundaries, the table always shows `Expected` of everything
      delivered so far. */
  lemma {:induction false} AppendBatchTracksHistory(t: Table, history: seq<string>, batch: seq<string>, limit: nat)
    requires WellFormed(t, limit)
    requires t.items == Expected(history, limit)
    requires 1 <= |batch| <= limit
    ensures AppendBatch(t, batch, limit).Ok?
    ensures AppendBatch(t, batch, limit).value.items == Expected(history + batch, limit)
  {
    var h := history + batch;
    if |t.items| + |batch| > limit {
      if |history| > limit {
        // The table holds the sentinel followed by the newest `limit - 1`
        // messages of `history`: those are the tail the two sides share.
        assert t.items[|t.items| - (limit - 1)..] == history[|history| - (limit - 1)..];
        TailsOfConcat(t.items, history, batch, limit - 1, limit - 1);
      } else {
        assert t.items == history;
      }
    } else {
      assert t.items == history;
    }
  }

  /** The scenarios a window update is expected to produce: with limit 2 a
      single message is shown as it is; with limit 3, feeding "a" to "e" one
      at a time into an empty table fills it, then ends with the sentinel and
      the last two messages. */
  lemma WindowScenarios()
    ensures AppendBatch(EmptyTable, ["x"], 2) == Ok(Table(["x"], 1))
    ensures AppendBatch(EmptyTable, ["a"], 3) == Ok(Table(["a"], 1))
    ensures AppendBatch(Table(["a"], 1), ["b"], 3) == Ok(Table(["a", "b"], 2))
    ensures AppendBatch(Table(["a", "b"], 2), ["c"], 3) == Ok(Table(["a", "b", "c"], 3))
    ensures AppendBatch(Table(["a", "b", "c"], 3), ["d"], 3) == Ok(Table([Ellipsis, "c", "d"], 3))
    ensures AppendBatch(Table([Ellipsis, "c", "d"], 3), ["e"], 3) == Ok(Table([Ellipsis, "d", "e"], 3))
  {
    assert [] + ["x"] == ["x"];
    assert [] + ["a"] == ["a"];
    assert ["a"] + ["b"] == ["a", "b"];
    assert ["a", "b"] + ["c"] == ["a", "b", "c"];
    assert WellFormed(Table(["a", "b", "c"], 3), 3);
    var first := AppendBatch(Table(["a", "b", "c"], 3), ["d"], 3).value.items;
    assert (["a", "b", "c"] + ["d"])[2..] == ["c", "d"];
    assert first == [Ellipsis, "c", "d"];
    assert WellFormed(Table([Ellipsis, "c", "d"], 3), 3);
    var second := AppendBatch(Table([Ellipsis, "c", "d"], 3), ["e"], 3).value.items;
    assert ([Ellipsis, "c", "d"] + ["e"])[2..] == ["d", "e"];
    assert second == [Ellipsis, "d", "e"];
  }

  /** `a` can be obtained from `b` by deleting elements: the messages of `a`
      occur in `b`, in the same order. Matching is done from the end. */
  predicate Subseq(a: seq<string>, b: seq<string>)
    decreases |b|
  {
    if |a| == 0 then true
    else if |b| == 0 then false
    else if a[|a| - 1] == b[|b| - 1] then Subseq(a[..|a| - 1], b[..|b| - 1])
    else Subseq(a, b[..|b| - 1])
  }

  /** Deleting the last element of a subsequence leaves a subsequence. */
  lemma {:induction false} SubseqDropLast(a: seq<string>, b: seq<string>)
    requires |a| > 0 && Subseq(a, b)
    ensures Subseq(a[..|a| - 1], b)
    decreases |b|
  {
    var a', b' := a[..|a| - 1], b[..|b| - 1];
    if a[|a| - 1] == b[|b| - 1] {
      assert Subseq(a', b');
    } else {
      SubseqDropLast(a, b');
    }
    // Now Subseq(a', b') holds; unfold Subseq(a', b) once.
    if |a'| > 0 && a'[|a'| - 1] == b[|b| - 1] {
      SubseqDropLast(a', b');
    }
  }

  /** A subsequence of `b` is a subsequence of `b` with one more element. */
  lemma SubseqSnoc(a: seq<string>, b: seq<string>, x: string)
    requires Subseq(a, b)
    ensures Subseq(a, b + [x])
  {
    assert (b + [x])[..|b|] == b;
    if |a| > 0 && a[|a| - 1] == x {
      SubseqDropLast(a, b);
    }
  }

  /** A subsequence of `b` is a subsequence of any extension of `b`. */
  lemma {:induction false} SubseqExtend(a: seq<string>, b: seq<string>, d: seq<string>)
    requires Subseq(a, b)
    ensures Subseq(a, b + d)
    decreases |d|
  {
    if |d| == 0 {
      assert b + d == b;
    } else {
      var d' := d[..|d| - 1];
      SubseqExtend(a, b, d');
      SubseqSnoc(a, b + d', d[|d| - 1]);
      assert b + d' + [d[|d| - 1]] == b + d;
    }
  }

  /** Every sequence is a subsequence of itself. */
  lemma {:induction false} SubseqRefl(a: seq<string>)
    ensures Subseq(a, a)
    decreases |a|
  {
    if |a| > 0 {
      SubseqRefl(a[..|a| - 1]);
    }
  }

  /** Subsequences concatenate: `a + c` is a subsequence of `b + d` when `a`
      is one of `b` and `c` one of `d`. */
  lemma {:induction false} SubseqConcat(a: seq<string>, b: seq<string>, c: seq<string>, d: seq<string>)
    requires Subseq(a, b) && Subseq(c, d)
    ensures Subseq(a + c, b + d)
    decreases |d|
  {
    if |c| == 0 {
      assert a + c == a;
      SubseqExtend(a, b, d);
    } else if c[|c| - 1] == d[|d| - 1] {
      var c', d' := c[..|c| - 1], d[..|d| - 1];
      SubseqConcat(a, b, c', d');
      assert (a + c)[..|a + c| - 1] == a + c';
      assert (b + d)[..|b + d| - 1] == b + d';
    } else {
      var d' := d[..|d| - 1];
      SubseqConcat(a, b, c, d');
      SubseqSnoc(a + c, b + d', d[|d| - 1]);
      assert b + d' + [d[|d| - 1]] == b + d;
    }
  }

  /** Deleting a tail of a subsequence leaves a subsequence. */
  lemma {:induction false} SubseqDropTail(a: seq<string>, c: seq<string>, b: seq<string>)
    requires Subseq(a + c, b)
    ensures Subseq(a, b)
    decreases |c|
  {
    if |c| == 0 {
      assert a + c == a;
    } else {
      SubseqDropLast(a + c, b);
      assert (a + c)[..|a + c| - 1] == a + c[..|c| - 1];
      SubseqDropTail(a, c[..|c| - 1], b);
    }
  }

  /** A subsequence is never longer than the sequence, and one of the same
      length is the sequence itself: nothing was deleted. */
  lemma {:induction false} SubseqLength(a: seq<string>, b: seq<string>)
    requires Subseq(a, b)
    ensures |a| <= |b|
    ensures |a| == |b| ==> a == b
    decreases |b|
  {
    if |a| > 0 {
      var a', b' := a[..|a| - 1], b[..|b| - 1];
      if a[|a| - 1] == b[|b| - 1] {
        SubseqLength(a', b');
        if |a| == |b| {
          assert a == a' + [a[|a| - 1]] && b == b' + [b[|b| - 1]];
        }
      } else {
        SubseqLength(a, b');
      }
    }
  }

  /** A suffix of a sequence is a subsequence of it. */
  lemma SubseqSuffix(q: seq<string>, k: nat)
    requires k <= |q|
    ensures Subseq(q[k..], q)
  {
    SubseqRefl(q[k..]);
    SubseqConcat([], q[..k], q[k..], q[k..]);
    assert [] + q[k..] == q[k..] && q[..k] + q[k..] == q;
  }
}

=== FILE: result_panel.dfy ===
/** The column-header logic of the search result table. Some columns show a
    file header, an e-mail header, or both joined by " / ", depending on a
    header mode: the mode the caller suggests (the preset), and, when that
    preset is "files and e-mails", the mode actually needed by the results on
    display. A result document is abstracted to whether it is an e-mail. */
module ResultPanel {
  import opened Outcomes

  /** Which header variant the variable columns show. */
  datatype HeaderMode = Files | Emails | FilesAndEmails

  /** The mode for results that contain files (`filesFound`) and e-mails
      (`emailsFound`). A result list with neither falls to `Emails`. */
  function GetInstance(filesFound: bool, emailsFound: bool): (mode: HeaderMode)
    ensures mode == FilesAndEmails <==> filesFound && emailsFound
    ensures mode == Files <==> filesFound && !emailsFound
    ensures mode == Emails <==> !filesFound
  {
    if filesFound then (if emailsFound then FilesAndEmails else Files)
    else Emails
  }

  /** Whether a mode's headers speak of files. */
  predicate ShowsFiles(mode: HeaderMode) {
    mode != Emails
  }

  /** Whether a mode's headers speak of e-mails. */
  predicate ShowsEmails(mode: HeaderMode) {
    mode != Files
  }

  /** `GetInstance` is the inverse of reading a mode's two flags: a mode is
      recovered from its flags, and the flags are recovered from the mode
      whenever at least one kind of result was found. */
  lemma GetInstanceInvertsFlags(mode: HeaderMode, filesFound: bool, emailsFound: bool)
    ensures GetInstance(ShowsFiles(mode), ShowsEmails(mode)) == mode
    ensures filesFound || emailsFound ==>
      && ShowsFiles(GetInstance(filesFound, emailsFound)) == filesFound
      && ShowsEmails(GetInstance(filesFound, emailsFound)) == emailsFound
  {
  }

  /** The text between the file and the e-mail header in a combined header. */
  const Separator: string := " / "

  /** A table column: a fixed column with one header, or a variable-header
      column that also keeps its three header variants. */
  datatype Column =
    | Fixed(header: string)
    | Variable(header: string, fileHeader: string, emailHeader: string, combinedHeader: string)

  /** A variable column's combined header is its file header, the separator
      and its e-mail header. */
  predicate Coherent(c: Column) {
    c.Variable? ==> c.combinedHeader == c.fileHeader + Separator + c.emailHeader
  }

  /** The `VariableHeaderColumn` constructor: it derives the combined header
      and starts out labelled with the file header. */
  function NewVariableColumn(fileHeader: string, emailHeader: string): (c: Column)
    ensures c.Variable? && Coherent(c)
    ensures c.fileHeader == fileHeader && c.emailHeader == emailHeader
    ensures c.header == fileHeader
    ensures |c.combinedHeader| == |fileHeader| + |Separator| + |emailHeader|
  {
    Variable(fileHeader, fileHeader, emailHeader, fileHeader + Separator + emailHeader)
  }

  /** The header a variable column shows in `mode`. */
  function HeaderFor(mode: HeaderMode, c: Column): string
    requires c.Variable?
  {
    match mode
    case Files => c.fileHeader
    case Emails => c.emailHeader
    case FilesAndEmails => c.combinedHeader
  }

  /** `HeaderMode.setLabel`: relabel a variable column for `mode`, keeping
      its header variants. */
  function SetLabel(mode: HeaderMode, c: Column): (r: Column)
    requires c.Variable?
    ensures r.Variable?
    ensures r.fileHeader == c.fileHeader && r.emailHeader == c.emailHeader
    ensures r.combinedHeader == c.combinedHeader
    ensures mode == Files ==> r.header == c.fileHeader
    ensures mode == Emails ==> r.header == c.emailHeader
    ensures mode == FilesAndEmails ==> r.header == c.combinedHeader
    ensures mode == FilesAndEmails && Coherent(c) ==> r.header == c.fileHeader + Separator + c.emailHeader
  {
    c.(header := HeaderFor(mode, c))
  }

  /** Reading the mode back off a variable column's header, when the header is
      one of its header variants. */
  function ModeOfLabel(c: Column): Option<HeaderMode>
    requires c.Variable?
  {
    if c.header == c.fileHeader then Some(Files)
    else if c.header == c.emailHeader then Some(Emails)
    else if c.header == c.combinedHeader then Some(FilesAndEmails)
    else None
  }

  /** For a column whose file and e-mail headers differ, the header `SetLabel`
      writes determines the mode it was written for: the combined header is
      longer than either part, so the three variants are distinct. */
  lemma SetLabelIsInjective(mode: HeaderMode, c: Column)
    requires c.Variable? && Coherent(c)
    requires c.fileHeader != c.emailHeader
    ensures ModeOfLabel(SetLabel(mode, c)) == Some(mode)
  {
    assert |c.combinedHeader| > |c.fileHeader| && |c.combinedHeader| > |c.emailHeader|;
  }

  /** `updateColumnHeaders`: relabel every variable column for `mode`,
      skipping the fixed ones. */
  function UpdateColumnHeaders(mode: HeaderMode, columns: seq<Column>): (r: seq<Column>)
    ensures |r| == |columns|
    ensures forall i :: 0 <= i < |columns| && columns[i].Fixed? ==> r[i] == columns[i]
    ensures forall i :: 0 <= i < |columns| && columns[i].Variable? ==> r[i] == SetLabel(mode, columns[i])
  {
    if |columns| == 0 then []
    else
      var head := if columns[0].Fixed? then columns[0] else SetLabel(mode, columns[0]);
      [head] + UpdateColumnHeaders(mode, columns[1..])
  }

  /** Every variable column is labelled with its header for `mode`. */
  predicate LabelsShow(columns: seq<Column>, mode: HeaderMode) {
    forall i :: 0 <= i < |columns| && columns[i].Variable? ==> columns[i].header == HeaderFor(mode, columns[i])
  }

  /** After an update the labels show the new mode, whatever they showed
      before; a second update overrides the first, and repeating an update
      changes nothing. */
  lemma UpdateColumnHeadersLastWins(m1: HeaderMode, m2: HeaderMode, columns: seq<Column>)
    ensures LabelsShow(UpdateColumnHeaders(m1, columns), m1)
    ensures UpdateColumnHeaders(m2, UpdateColumnHeaders(m1, columns)) == UpdateColumnHeaders(m2, columns)
    ensures LabelsShow(columns, m1) ==> UpdateColumnHeaders(m1, columns) == columns
  {
    var once := UpdateColumnHeaders(m1, columns);
    var twice := UpdateColumnHeaders(m2, once);
    assert forall i :: 0 <= i < |columns| ==> twice[i] == UpdateColumnHeaders(m2, columns)[i];
    if LabelsShow(columns, m1) {
      assert forall i :: 0 <= i < |columns| ==> once[i] == columns[i];
    }
  }

  /** The columns of the result table, in order, as the constructor adds
      them: title, score, size, filename, type, path, authors, last modified. */
  function DefaultColumns(): (columns: seq<Column>)
    ensures |columns| == 8
    ensures forall i :: 0 <= i < |columns| ==> (columns[i].Variable? <==> i == 0 || i == 3 || i == 6 || i == 7)
    ensures forall i :: 0 <= i < |columns| ==> Coherent(columns[i])
    ensures LabelsShow(columns, Files)
  {
    [ NewVariableColumn("Title", "Subject"),
      Fixed("Score [%]"),
      Fixed("Size"),
      NewVariableColumn("Filename", "Sender"),
      Fixed("Type"),
      Fixed("Path"),
      NewVariableColumn("Authors", "Sender"),
      NewVariableColumn("Last Modified", "Send Date") ]
  }

  /** A result document, reduced to what the header logic looks at. */
  datatype Doc = Doc(isEmail: bool)

  /** Some result is a file. */
  predicate HasFile(results: seq<Doc>) {
    exists i :: 0 <= i < |results| && !results[i].isEmail
  }

  /** Some result is an e-mail. */
  predicate HasEmail(results: seq<Doc>) {
    exists i :: 0 <= i < |results| && results[i].isEmail
  }

  /** The panel's header state: the preset mode, the actual mode, the
      columns of the table and the results on display (the viewer's root). */
  datatype Panel = Panel(preset: HeaderMode, actual: HeaderMode, columns: seq<Column>, results: seq<Doc>)

  /** The state a panel keeps between calls: the actual mode follows the
      preset unless the preset is "files and e-mails", in which case it is
      the mode the results on display call for; and the variable columns
      show the headers of the actual mode. */
  predicate PanelInv(p: Panel) {
    && (p.preset != FilesAndEmails ==> p.actual == p.preset)
    && (p.preset == FilesAndEmails ==> p.actual == GetInstance(HasFile(p.results), HasEmail(p.results)))
    && LabelsShow(p.columns, p.actual)
  }

  /** A new panel: both modes start at `Files`, nothing is on display, and
      every variable column is labelled with its file header. */
  function NewPanel(): (p: Panel)
    ensures PanelInv(p)
    ensures p.preset == Files && p.actual == Files && p.results == []
  {
    Panel(Files, Files, DefaultColumns(), [])
  }

  /** The loop of `setActualHeaderMode` that looks for files and e-mails
      among the results. */
  method ScanResults(results: seq<Doc>) returns (filesFound: bool, emailsFound: bool)
    ensures filesFound <==> HasFile(results)
    ensures emailsFound <==> HasEmail(results)
  {
    filesFound := false;
    emailsFound := false;
    var i := 0;
    while i < |results|
      invariant 0 <= i <= |results|
      invariant filesFound <==> exists j :: 0 <= j < i && !results[j].isEmail
      invariant emailsFound <==> exists j :: 0 <= j < i && results[j].isEmail
    {
      if results[i].isEmail {
        emailsFound := true;
      } else {
        filesFound := true;
      }
      i := i + 1;
    }
  }

  /** `setActualHeaderMode`: a preset other than "files and e-mails" becomes
      the actual mode and nothing is relabelled; otherwise the actual mode is
      worked out from the results and every variable column is relabelled. */
  method SetActualHeaderMode(p: Panel, results: seq<Doc>) returns (q: Panel)
    ensures q.preset == p.preset && q.results == p.results
    ensures p.preset != FilesAndEmails ==> q.actual == p.preset && q.columns == p.columns
    ensures p.preset == FilesAndEmails ==>
      && q.actual == GetInstance(HasFile(results), HasEmail(results))
      && q.columns == UpdateColumnHeaders(q.actual, p.columns)
  {
    if p.preset != FilesAndEmails {
      return p.(actual := p.preset);
    }
    var filesFound, emailsFound := ScanResults(results);
    var actual := GetInstance(filesFound, emailsFound);
    q := p.(actual := actual, columns := UpdateColumnHeaders(actual, p.columns));
  }

  /** `setResults`: adopt the new preset, relabelling for it right away when
      it changed and is not "files and e-mails", settle the actual mode, and
      put the results on display. A panel that keeps its invariant keeps it,
      and afterwards the e-mail icon marks exactly the e-mails of a display
      that mixes files and e-mails under the "files and e-mails" preset. */
  method SetResults(p: Panel, results: seq<Doc>, mode: HeaderMode) returns (q: Panel)
    ensures q.preset == mode && q.results == results
    ensures mode != FilesAndEmails ==> q.actual == mode
    ensures mode != FilesAndEmails && mode != p.preset ==> q.columns == UpdateColumnHeaders(mode, p.columns)
    ensures mode != FilesAndEmails && mode == p.preset ==> q.columns == p.columns
    ensures mode == FilesAndEmails ==>
      && q.actual == GetInstance(HasFile(results), HasEmail(results))
      && q.columns == UpdateColumnHeaders(q.actual, p.columns)
    ensures PanelInv(p) ==> PanelInv(q)
    ensures forall doc :: EmailIconOrNull(q, doc).Some? <==>
      mode == FilesAndEmails && HasFile(results) && HasEmail(results) && doc.isEmail
  {
    var current := p;
    if p.preset != mode {
      if mode != FilesAndEmails {
        current := current.(columns := UpdateColumnHeaders(mode, current.columns));
      }
      current := current.(preset := mode);
    }
    q := SetActualHeaderMode(current, results);
    q := q.(results := results);
    UpdateColumnHeadersLastWins(q.actual, q.actual, current.columns);
    if mode == FilesAndEmails && p.preset != mode {
      UpdateColumnHeadersLastWins(q.actual, q.actual, p.columns);
    }
  }

  /** The icon a variable column shows in a cell. */
  datatype Icon = EmailIcon

  /** `getEmailIconOrNull`, which the Filename, Authors and Last Modified
      columns use for their cell image: the e-mail icon, shown only in the
      "files and e-mails" header mode and only beside an e-mail. */
  function EmailIconOrNull(p: Panel, doc: Doc): (icon: Option<Icon>)
    ensures icon.Some? <==> p.actual == FilesAndEmails && doc.isEmail
    ensures icon.Some? ==> icon.value == EmailIcon
  {
    if p.actual != FilesAndEmails then None
    else if doc.isEmail then Some(EmailIcon)
    else None
  }

  /** In a panel that keeps its invariant, the e-mail icon appears exactly
      beside the e-mails of a display that holds both files and e-mails under
      the "files and e-mails" preset: never for a pure file or pure e-mail
      display, and never under another preset. */
  lemma EmailIconOnlyWhenMixed(p: Panel, doc: Doc)
    requires PanelInv(p)
    ensures EmailIconOrNull(p, doc).Some? <==>
      p.preset == FilesAndEmails && HasFile(p.results) && HasEmail(p.results) && doc.isEmail
  {
  }
}
